=== FILE: README.md ===
# Trailing-24-hour rainfall window, in Dafny

This project models the rainfall accumulator of the `calcrain` package and the
option validator of the `cmd` package. It proves properties of both.

The accumulator `Data` holds cumulative rain-gauge readings in the order they
were appended. It also holds `PrevMax`, the last reading seen before a change of
day. `Append` adds a reading. `RainLast24Hours` answers with
`PrevMax.Amount - baseline + amount`. The baseline is the most recent reading
that is at least 24 hours old. It is found by a binary search (`prevNow`), and
that search can fail in two ways:

- "insufficient data": every reading is younger than 24 hours;
- "prev too old": the baseline is more than 24 hours plus `threshold` minutes old.

Before the staleness test, `prevNow` also prunes the readings down to a suffix.

`validate` checks the station options in a fixed order. It rejects zero
coordinates, an address that does not parse, a port above 65535, an SSID that
is not 1–2 bytes long, and a callsign that is not 3–8 bytes long. It then strips
`-` from both ends of the callsign and the SSID.

Files:

- `results.dfy`: `Option` and `Result`.
- `calcrain.dfy`: module `CalcRain`. It holds the data model and `Append`. It
  holds the search as a method with loop invariants (`PrevNow`) and
  `RainLast24Hours`. It also holds a functional reference that finds the
  baseline by a linear scan (`LastOld`, `PrevNowRef`, `RainRef`).
- `calcrain_props.dfy`: module `CalcRainProps`. It holds lemmas that relate
  several calls.
- `validate.dfy`: module `Cmd`. It holds `Validate`, the ordered list of checks
  it must agree with, and `strings.Trim` for a one-character cut set.

Representation choices:

- Timestamps are integers that count nanoseconds, the unit of Go's
  `time.Duration`. `MINUTE`, `HOUR` and `DAY` are constants.
- Amounts and coordinates are `real`.
- The weekday comparison `Local().Weekday()` is a parameter `dayOf: int -> int`
  of `Append`.
- `net.ParseIP` is a parameter `parseIP: Bytes -> Option<Bytes>` of `Validate`.
- Go strings are byte sequences, because Go's `len` counts bytes. Trimming the
  byte 45 is the same as trimming the rune `-`.
- Go changes `*Data` in place. The model returns a `Query` instead: the window
  after the call, the float returned, and the error (`None` for nil).

Two behaviours of the code that a reader might not expect, both modelled as written:

- With no readings, `prevNow` never enters its loop and indexes the slice at
  -1 (calcrain/calcrain.go:50, 65), so Go panics. The model therefore requires
  at least one reading. It does not return "insufficient data" for an empty
  window.
- A window of a single reading that is at least 24 hours old uses that reading
  as the baseline. It succeeds unless the reading is more than 24 hours plus
  `threshold` minutes old, and then the result is "prev too old"
  (`SingleOldReadingSucceeds`, `StaleBoundInclusive`). It never fails with
  "insufficient data".

## Model

| member | source | states |
|---|---|---|
| `CalcRain.Append` | calcrain/calcrain.go:19-33 | the readings grow by exactly one, the new reading is last and earlier readings are unchanged; the mark becomes the previous last reading when two or more readings were stored and its day differs from the new one's, and it changes in no other case |
| `CalcRain.LastOld` | calcrain/calcrain.go:52-66 | the linear-scan reference for the search: it returns the most recent reading at least 24 hours old (the test is strict `<` 24 h), or nothing when every reading is recent |
| `CalcRain.Prune` | calcrain/calcrain.go:69-71 | what remains is a suffix of the readings that still holds the baseline; nothing is dropped while the baseline index is at most a quarter of the length, and otherwise the oldest `idx/2` readings are dropped |
| `CalcRain.FromBaseline` | calcrain/calcrain.go:65-77 | once the search has settled, the readings are pruned whatever follows; "prev too old" is returned exactly when the age exceeds 24 h plus `threshold` minutes, and otherwise the baseline's amount is returned |
| `CalcRain.PrevNowRef` | calcrain/calcrain.go:48-77 | "insufficient data" exactly when every reading is recent, with the window unchanged; otherwise the answer is determined by the unique baseline; the mark is never touched |
| `CalcRain.Combine` | calcrain/calcrain.go:39-43 | an error from the search is passed on with 0.0 and the search's window; otherwise the answer is the mark's amount minus the baseline amount plus the current amount, again with the search's window |
| `CalcRain.RainRef` | calcrain/calcrain.go:37-44 | on success the answer is mark minus baseline plus the current amount; an error from the search is passed on with 0.0 |
| `CalcRain.BaselineUnique` | calcrain/calcrain.go:52-66 | there is at most one "most recent old reading", and the linear scan finds it |
| `CalcRain.SortedBaseline` | calcrain/calcrain.go:52-63 | on time-ordered readings, an old reading followed by a recent one (or by nothing) is the most recent old reading |
| `CalcRain.PrevNow` | calcrain/calcrain.go:48-77 | the binary search needs a non-empty slice; it always terminates; when all readings are recent it reports "insufficient data" and leaves the window alone; otherwise it stops on an old reading whose successor is recent, even on unsorted readings; on sorted readings it agrees with the linear-scan reference |
| `CalcRain.RainLast24Hours` | calcrain/calcrain.go:37-77 | the mark is unchanged; any error comes with 0.0; "insufficient data" leaves the window exactly as it was and is reported only when the first reading is recent; otherwise the search stops on an old reading whose successor is recent, the window is pruned at it, "prev too old" is returned exactly when that reading is stale, and on success the answer is mark minus that reading plus the current amount; on time-ordered readings it agrees with the reference |
| `CalcRainProps.AppendKeepsSorted` | calcrain/calcrain.go:19-33 | appending a reading no older than the last one keeps the readings time-ordered |
| `CalcRainProps.AppendAll` | calcrain/calcrain.go:32 | appending a history one reading at a time stores exactly that history after the existing readings |
| `CalcRainProps.AppendAllStep` | calcrain/calcrain.go:26-30 | one more append changes the mark only when it records a day change, and then to the reading just before the new one |
| `CalcRainProps.AppendHistoryMark` | calcrain/calcrain.go:26-30 | after a history of appends, the mark is the reading that closed the last day change at index 1 or later |
| `CalcRainProps.AppendHistoryUnset` | calcrain/calcrain.go:26-30 | with no such day change, including any change between the first two readings, the mark stays the zero record |
| `CalcRainProps.AppendHistory` | calcrain/calcrain.go:19-33 | from the empty window, appending a history yields that history and the mark described by the two lemmas above |
| `CalcRainProps.AppendAfterPrune` | calcrain/calcrain.go:69-71 | a prune keeps two or more readings when there were two and keeps the last one, so the next append sets the mark as it would have without the prune |
| `CalcRainProps.PruneKeepsBaseline` | calcrain/calcrain.go:69-71 | pruning keeps the baseline and every newer reading in order, and the baseline stays the baseline of what remains |
| `CalcRainProps.PruneKeepsSorted` | calcrain/calcrain.go:70 | pruning time-ordered readings leaves them time-ordered |
| `CalcRainProps.RepeatQueryAfterPrune` | calcrain/calcrain.go:37-77 | for the linear-scan reference (which the Go search equals on time-ordered readings): asking again with the same time, amount and threshold right after a query, which may have pruned, gives the same value and error |
| `CalcRainProps.RepeatRainLast24Hours` | calcrain/calcrain.go:37-77 | on time-ordered readings, calling `RainLast24Hours` a second time on the window the first call left behind, with the same time, amount and threshold, gives the same value and error as the first call |
| `CalcRainProps.ExactlyOneDayOldIsEligible` | calcrain/calcrain.go:55 | for the linear-scan reference (which the Go search equals on time-ordered readings): a newest reading exactly 24 hours old is the baseline, because the recency test is strict |
| `CalcRainProps.StaleBoundInclusive` | calcrain/calcrain.go:65-77 | wherever the search stops, sorted readings or not: a reading there exactly 24 h plus `threshold` minutes old is accepted with its amount, and one nanosecond older gives "prev too old" |
| `CalcRainProps.SingleOldReadingSucceeds` | calcrain/calcrain.go:49-66 | a single reading at least 24 hours old, and not stale, is the baseline; the result is mark minus it plus the amount |
| `CalcRainProps.WorkedExample` | calcrain/calcrain.go:19-77 | readings at 00:00, 12:00 and 01:00 the next day give the mark at 12:00 and the answer 5 - 0 + 12 with a 90-minute allowance, and "prev too old" with none |
| `Cmd.Checks` | cmd/main.go:61-95 | the nine checks of `validate` in its order; all of them pass exactly when both coordinates are non-zero, the address parses, the port is at most 65535, the SSID has 1 or 2 bytes and the callsign 3 to 8 bytes; no two checks report the same error |
| `Cmd.FirstFailure` | cmd/main.go:59-95 | the reported error is that of the first failing check, with all earlier checks passing; there is no error exactly when all checks pass |
| `Cmd.FirstFailureAt` | cmd/main.go:59-95 | a check that fails after every earlier check passed is the one reported |
| `Cmd.ValidateFirstFailureWins` | cmd/main.go:59-95 | `Validate` accepts exactly when every check in the ordered list passes, and otherwise reports the first failing check's error |
| `Cmd.Validate` | cmd/main.go:59-101 | on success the address is the parsed input address, the callsign and SSID are trimmed of `-`, and no other field changes |
| `Cmd.PortBoundary` | cmd/main.go:75-78 | once the earlier checks pass, every port up to 65535 passes the port check, and ports above 65535 and only those give the max-port error |
| `Cmd.SsidLength` | cmd/main.go:81-85 | once the earlier checks pass, an SSID longer than 2 bytes is "too long" and an empty one is "empty", each exactly in that case |
| `Cmd.CallsignLength` | cmd/main.go:88-95 | once the earlier checks pass, a callsign is missing, too long or too short exactly in those cases, and accepted exactly at 3 to 8 bytes |
| `Cmd.TrimLeft` | cmd/main.go:97-98 | what remains is a suffix that does not start with the cut byte, and everything removed is the cut byte |
| `Cmd.TrimRight` | cmd/main.go:97-98 | what remains is a prefix that does not end with the cut byte, and everything removed is the cut byte |
| `Cmd.Trim` | cmd/main.go:97-98 | the result is an infix that neither starts nor ends with the cut byte, and every byte around it is the cut byte |
| `Cmd.TrimHalvesCutOnlyC` | cmd/main.go:97-98 | cutting the leading and then the trailing cut bytes keeps one contiguous part of the input and removes only cut bytes on either side of it |
| `Cmd.TrimIdempotent` | cmd/main.go:97-98 | trimming twice is trimming once |
| `Cmd.DashesTrimToEmpty` | cmd/main.go:88-100 | trimming happens after the length checks, so a callsign `---` and an SSID `-` are accepted and come out empty |

## Left out

- `Body`, `parseArgs`, `server` and the flag defaults in cmd/main.go: these are
  flag parsing, printing, exit codes and the network server, which are I/O.
- The options record on an error path: Go returns the partly updated record
  with the error, but its caller discards it. `Validate` returns only the error.
- `net.ParseIP`: not part of this model. It is the parameter `parseIP`.
- `time.Time.Local().Weekday()` and time zones: not part of this model. The day
  test is the parameter `dayOf`. So the model cannot show that comparing weekdays
  treats readings exactly a week apart as the same day.
- Go `time.Duration` overflow in `t.Sub` and in `Minute*Duration(threshold)`:
  times are unbounded integers.
- float64 rounding in the amount arithmetic, and NaN coordinates, which pass
  the `== 0.0` tests in Go: amounts and coordinates are `real`.
- Go's `uint` port width: the port is a `nat`, and only its comparison with
  65535 matters.
- That the prune copies into a fresh slice to release memory: the model only
  takes the suffix.
- Concurrent access: the type has no locking and is meant for one thread.
- `CalcRain.PrevNow`: on unsorted readings, the contract fixes the stopping
  index only up to "old reading whose successor is recent". The exact index the
  bisection reaches is not stated.
- `CalcRain.RainLast24Hours`: on unsorted readings, the contract likewise does
  not state which old reading with a recent successor is used as the baseline.
  Nor does it state exactly when "insufficient data" is reported: it promises
  only that the first reading is then recent, and a recent first reading
  followed by old ones can still yield a baseline.
- `CalcRainProps.RepeatQueryAfterPrune`, `CalcRainProps.RepeatRainLast24Hours`
  and `CalcRainProps.ExactlyOneDayOldIsEligible`: these hold only for
  time-ordered readings. On unsorted readings the bisection can miss the
  newest old reading. With two recent readings followed by one exactly 24 hours
  old, its first probe is recent, so it narrows to the first reading alone and
  reports "insufficient data". After a prune shifts the indices, a repeated
  call can also settle on a different old reading and return another value.

=== FILE: calcrain.dfy ===
/**
  The trailing-24-hour rainfall accumulator of calcrain/calcrain.go.

  A `Data` value holds the cumulative rain-gauge readings in append order and the
  day-boundary mark `prevMax`.  Go mutates `*Data` in place; here every operation
  takes the old value and returns the new one.  Timestamps are integers counting
  nanoseconds, the unit of Go's `time.Duration`; amounts are reals.
*/
module CalcRain {
  import opened Results

  const MINUTE: int := 60_000_000_000
  const HOUR: int := 60 * MINUTE
  const DAY: int := 24 * HOUR

  /** One gauge reading (`record` in calcrain.go). */
  datatype Record = Record(time: int, amount: real)

  /** The window: the readings and the last reading seen before a day change. */
  datatype Data = Data(rain: seq<Record>, prevMax: Record)

  /** Go's zero `record`, the value of `PrevMax` until a day change is seen. */
  const Unset := Record(0, 0.0)

  /** Go's zero `Data`: no readings, no mark. */
  const Empty := Data([], Unset)

  /** The two errors of `prevNow`: "insufficient data" and "prev too old". */
  datatype RainError = InsufficientData | PrevTooOld

  /**
    What a query hands back: the window after the call (possibly pruned), the
    float the Go function returns, and its error (None for Go's nil).
  */
  datatype Query = Query(data: Data, value: real, err: Option<RainError>)

  /** Readings in non-decreasing time order, as the callers are expected to append them. */
  predicate Sorted(rain: seq<Record>) {
    forall i, j :: 0 <= i < j < |rain| ==> rain[i].time <= rain[j].time
  }

  /** A reading less than 24 hours older than `t`: the strict test of the search. */
  predicate Recent(r: Record, t: int) {
    t - r.time < DAY
  }

  /** A baseline further back than 24 hours plus `threshold` minutes. */
  predicate Stale(r: Record, t: int, threshold: nat) {
    t - r.time > DAY + MINUTE * threshold
  }

  /** Index `i` holds the most recent reading that is at least 24 hours old. */
  predicate IsBaseline(rain: seq<Record>, t: int, i: int) {
    && 0 <= i < |rain|
    && !Recent(rain[i], t)
    && forall j :: i < j < |rain| ==> Recent(rain[j], t)
  }

  /**
    Index `i` is where a binary search for the boundary between old and recent
    readings can stop: `rain[i]` is old and its successor, if any, is recent.
    On sorted readings this is exactly the baseline (`SortedBaseline`).
  */
  predicate SearchStop(rain: seq<Record>, t: int, i: int) {
    && 0 <= i < |rain|
    && !Recent(rain[i], t)
    && (i + 1 < |rain| ==> Recent(rain[i + 1], t))
  }

  /**
    Append a reading.  When at least two readings are stored and the last one
    falls on a different day (by `dayOf`) from the new one, that last reading
    becomes the day-boundary mark first.
  */
  function Append(d: Data, amount: real, t: int, dayOf: int -> int): (d': Data)
    ensures |d'.rain| == |d.rain| + 1
    ensures d'.rain[..|d.rain|] == d.rain
    ensures d'.rain[|d.rain|] == Record(t, amount)
    ensures |d.rain| > 1 && dayOf(d.rain[|d.rain| - 1].time) != dayOf(t) ==>
              d'.prevMax == d.rain[|d.rain| - 1]
    ensures d'.prevMax != d.prevMax ==>
              |d.rain| > 1 && dayOf(d.rain[|d.rain| - 1].time) != dayOf(t)
  {
    var mark :=
      if |d.rain| > 1 && dayOf(d.rain[|d.rain| - 1].time) != dayOf(t)
      then d.rain[|d.rain| - 1]
      else d.prevMax;
    Data(d.rain + [Record(t, amount)], mark)
  }

  /**
    Reference for the search: scan from the newest reading backwards and return
    the first index whose reading is at least 24 hours old.
  */
  function LastOld(rain: seq<Record>, t: int): (r: Option<nat>)
    ensures r.Some? ==> IsBaseline(rain, t, r.value)
    ensures r.None? ==> forall j :: 0 <= j < |rain| ==> Recent(rain[j], t)
  {
    if |rain| == 0 then None
    else if !Recent(rain[|rain| - 1], t) then Some(|rain| - 1)
    else LastOld(rain[..|rain| - 1], t)
  }

  /**
    The pruning step: once the baseline index `idx` lies past the first quarter,
    keep only the readings from `idx / 2` on.
  */
  function Prune(rain: seq<Record>, idx: nat): (kept: seq<Record>)
    requires idx < |rain|
    ensures |kept| <= |rain| && kept == rain[|rain| - |kept|..]
    ensures |rain| - |kept| <= idx
    ensures idx <= |rain| / 4 ==> kept == rain
    ensures idx > |rain| / 4 ==> |rain| - |kept| == idx / 2
  {
    if idx > |rain| / 4 then rain[idx / 2..] else rain
  }

  /**
    The tail of `prevNow` once the search has settled on index `idx`: measure the
    baseline's age, prune, then reject a baseline older than the allowed gap.
  */
  function FromBaseline(d: Data, t: int, threshold: nat, idx: nat): (q: Query)
    requires idx < |d.rain|
    ensures q.data == d.(rain := Prune(d.rain, idx))
    ensures q.err == Some(PrevTooOld) <==> Stale(d.rain[idx], t, threshold)
    ensures q.err.None? <==> !Stale(d.rain[idx], t, threshold)
    ensures q.err.None? ==> q.value == d.rain[idx].amount
    ensures q.err.Some? ==> q.value == 0.0
  {
    var base := d.rain[idx];
    var pruned := d.(rain := Prune(d.rain, idx));
    if Stale(base, t, threshold) then Query(pruned, 0.0, Some(PrevTooOld))
    else Query(pruned, base.amount, None)
  }

  /** Reference for `prevNow`, with the linear scan in place of the binary search. */
  function PrevNowRef(d: Data, t: int, threshold: nat): (q: Query)
    requires |d.rain| > 0
    ensures q.data.prevMax == d.prevMax
    ensures q.err == Some(InsufficientData) <==>
              forall j :: 0 <= j < |d.rain| ==> Recent(d.rain[j], t)
    ensures q.err == Some(InsufficientData) ==> q.data == d && q.value == 0.0
    ensures forall i :: IsBaseline(d.rain, t, i) ==> q == FromBaseline(d, t, threshold, i)
  {
    match LastOld(d.rain, t)
    case None => Query(d, 0.0, Some(InsufficientData))
    case Some(i) => BaselineUnique(d.rain, t, i); FromBaseline(d, t, threshold, i)
  }

  /**
    calcrain.go, `RainLast24Hours` lines 39-43: pass an error on with 0.0, otherwise the mark's
    amount minus the baseline `p.value` plus the current amount.
  */
  function Combine(prevMax: Record, p: Query, amount: real): (q: Query)
    ensures q.data == p.data && q.err == p.err
    ensures q.err.Some? ==> q.value == 0.0
    ensures q.err.None? ==> q.value == prevMax.amount - p.value + amount
  {
    if p.err.Some? then Query(p.data, 0.0, p.err)
    else Query(p.data, prevMax.amount - p.value + amount, None)
  }

  /** Reference for `RainLast24Hours`. */
  function RainRef(d: Data, amount: real, t: int, threshold: nat): (q: Query)
    requires |d.rain| > 0
    ensures q.data.prevMax == d.prevMax
    ensures q.err == PrevNowRef(d, t, threshold).err
    ensures q.err.Some? ==> q.value == 0.0
    ensures forall i {:trigger IsBaseline(d.rain, t, i)} :: IsBaseline(d.rain, t, i) && q.err.None? ==>
              q.value == d.prevMax.amount - d.rain[i].amount + amount
  {
    Combine(d.prevMax, PrevNowRef(d, t, threshold), amount)
  }

  /** There is at most one baseline index. */
  lemma BaselineUnique(rain: seq<Record>, t: int, i: int)
    requires IsBaseline(rain, t, i)
    ensures forall k :: IsBaseline(rain, t, k) ==> k == i
    ensures LastOld(rain, t) == Some(i)
  {
  }

  /** In sorted readings, an old reading followed by a recent one (or by nothing) is the baseline. */
  lemma SortedBaseline(rain: seq<Record>, t: int, i: int)
    requires Sorted(rain) && SearchStop(rain, t, i)
    ensures IsBaseline(rain, t, i)
  {
    forall j | i < j < |rain|
      ensures Recent(rain[j], t)
    {
      assert rain[i + 1].time <= rain[j].time;
    }
  }

  /**
    `prevNow`: binary search for the baseline, then `FromBaseline`.  `lo` and
    `hi` are `old` and `new` of calcrain.go.  With no readings Go indexes
    the slice at -1 and panics, hence the precondition.
  */
  method PrevNow(d: Data, t: int, threshold: nat) returns (q: Query)
    requires |d.rain| > 0
    ensures q.err == Some(InsufficientData) ==>
              q == Query(d, 0.0, Some(InsufficientData)) && Recent(d.rain[0], t)
    ensures (forall j :: 0 <= j < |d.rain| ==> Recent(d.rain[j], t)) ==>
              q == Query(d, 0.0, Some(InsufficientData))
    ensures q.err != Some(InsufficientData) ==>
              exists i :: && SearchStop(d.rain, t, i)
                          && q == FromBaseline(d, t, threshold, i)
    ensures Sorted(d.rain) ==> q == PrevNowRef(d, t, threshold)
  {
    var lo, hi := 0, |d.rain| - 1;
    while lo <= hi
      invariant 0 <= hi < |d.rain|
      invariant 0 <= lo <= hi + 1
      invariant lo > 0 ==> !Recent(d.rain[lo - 1], t)
      invariant hi + 1 < |d.rain| ==> Recent(d.rain[hi + 1], t)
      decreases hi - lo
    {
      var mid := lo + (hi - lo) / 2;
      if Recent(d.rain[mid], t) {
        hi := mid - 1;
        if hi == -1 {
          if Sorted(d.rain) {
            forall j | 0 <= j < |d.rain|
              ensures Recent(d.rain[j], t)
            {
              assert d.rain[0].time <= d.rain[j].time;
            }
          }
          return Query(d, 0.0, Some(InsufficientData));
        }
      } else {
        lo := mid + 1;
      }
    }
    if Sorted(d.rain) {
      SortedBaseline(d.rain, t, hi);
    }
    q := FromBaseline(d, t, threshold, hi);
    assert SearchStop(d.rain, t, hi);
  }

  /** `RainLast24Hours`: the mark's amount minus the baseline plus the current amount. */
  method RainLast24Hours(d: Data, amount: real, t: int, threshold: nat) returns (q: Query)
    requires |d.rain| > 0
    ensures q.data.prevMax == d.prevMax
    ensures q.err.Some? ==> q.value == 0.0
    ensures q.err == Some(InsufficientData) ==>
              q == Query(d, 0.0, Some(InsufficientData)) && Recent(d.rain[0], t)
    ensures q.err != Some(InsufficientData) ==>
              exists i :: && SearchStop(d.rain, t, i)
                          && q.data == d.(rain := Prune(d.rain, i))
                          && (q.err.None? <==> !Stale(d.rain[i], t, threshold))
                          && (q.err.None? ==> q.value == d.prevMax.amount - d.rain[i].amount + amount)
    ensures Sorted(d.rain) ==> q == RainRef(d, amount, t, threshold)
  {
    var p := PrevNow(d, t, threshold);
    q := Combine(p.data.prevMax, p, amount);
    if p.err != Some(InsufficientData) {
      ghost var i :| SearchStop(d.rain, t, i) && p == FromBaseline(d, t, threshold, i);
      assert && SearchStop(d.rain, t, i)
             && q.data == d.(rain := Prune(d.rain, i))
             && (q.err.None? <==> !Stale(d.rain[i], t, threshold))
             && (q.err.None? ==> q.value == d.prevMax.amount - d.rain[i].amount + amount);
    }
  }
}

=== FILE: calcrain_props.dfy ===
/**
  Properties of the rainfall window that relate several calls: the invariant
  `Append` keeps, the day-boundary mark after a whole history of appends, what
  pruning keeps, and the repeated query after a prune.
*/
module CalcRainProps {
  import opened Results
  import opened CalcRain

  /** Appending a reading no older than the last one keeps the readings sorted. */
  lemma AppendKeepsSorted(d: Data, amount: real, t: int, dayOf: int -> int)
    requires Sorted(d.rain)
    requires |d.rain| > 0 ==> d.rain[|d.rain| - 1].time <= t
    ensures Sorted(Append(d, amount, t, dayOf).rain)
  {
    var r := Append(d, amount, t, dayOf).rain;
    forall i, j | 0 <= i < j < |r|
      ensures r[i].time <= r[j].time
    {
      if j == |d.rain| && i < |d.rain| - 1 {
        assert r[i].time <= r[|d.rain| - 1].time;
      }
    }
  }

  /** Appends the readings of `h` one after another, oldest first. */
  function AppendAll(d: Data, h: seq<Record>, dayOf: int -> int): (d': Data)
    ensures d'.rain == d.rain + h
    decreases |h|
  {
    if |h| == 0 then d
    else
      var last := h[|h| - 1];
      var prev := AppendAll(d, h[..|h| - 1], dayOf);
      var next := Append(prev, last.amount, last.time, dayOf);
      assert next.rain == prev.rain + [last];
      assert h == h[..|h| - 1] + [last];
      next
  }

  /**
    `i` is the last day change of the history `h` that the mark can record:
    `h[i]` and `h[i + 1]` fall on different days, no later neighbours do, and
    `h[i + 1]` was appended with at least two readings already stored (`i >= 1`).
  */
  predicate LastDayChange(h: seq<Record>, dayOf: int -> int, i: int) {
    && 1 <= i < |h| - 1
    && dayOf(h[i].time) != dayOf(h[i + 1].time)
    && forall j :: i < j < |h| - 1 ==> dayOf(h[j].time) == dayOf(h[j + 1].time)
  }

  /** No two neighbouring readings from index 1 on fall on different days. */
  predicate NoDayChange(h: seq<Record>, dayOf: int -> int) {
    forall i :: 1 <= i < |h| - 1 ==> dayOf(h[i].time) == dayOf(h[i + 1].time)
  }

  /** One more append changes the mark only when it records a day change. */
  lemma AppendAllStep(h: seq<Record>, dayOf: int -> int)
    requires |h| > 0
    ensures var n := |h|;
            var before := AppendAll(Empty, h[..n - 1], dayOf).prevMax;
            var after := AppendAll(Empty, h, dayOf).prevMax;
            && (n - 1 > 1 && dayOf(h[n - 2].time) != dayOf(h[n - 1].time) ==> after == h[n - 2])
            && (!(n - 1 > 1 && dayOf(h[n - 2].time) != dayOf(h[n - 1].time)) ==> after == before)
  {
    var n := |h|;
    var h' := h[..n - 1];
    assert AppendAll(Empty, h', dayOf).rain == h';
    if n > 1 {
      assert h'[n - 2] == h[n - 2];
    }
  }

  /** The mark after appending `h` is the reading that closed its last recordable day. */
  lemma {:induction false} AppendHistoryMark(h: seq<Record>, dayOf: int -> int, i: int)
    requires LastDayChange(h, dayOf, i)
    ensures AppendAll(Empty, h, dayOf).prevMax == h[i]
    decreases |h|
  {
    var n := |h|;
    var h' := h[..n - 1];
    AppendAllStep(h, dayOf);
    if i < n - 2 {
      assert dayOf(h[n - 2].time) == dayOf(h[n - 1].time);
      assert LastDayChange(h', dayOf, i) by {
        assert forall j :: 0 <= j < |h'| ==> h'[j] == h[j];
      }
      AppendHistoryMark(h', dayOf, i);
    }
  }

  /** With no recordable day change, appending `h` leaves the mark at the zero record. */
  lemma {:induction false} AppendHistoryUnset(h: seq<Record>, dayOf: int -> int)
    requires NoDayChange(h, dayOf)
    ensures AppendAll(Empty, h, dayOf).prevMax == Unset
    decreases |h|
  {
    if |h| > 0 {
      var h' := h[..|h| - 1];
      assert NoDayChange(h', dayOf) by {
        forall i | 1 <= i < |h'| - 1
          ensures dayOf(h'[i].time) == dayOf(h'[i + 1].time)
        {
          assert h'[i] == h[i] && h'[i + 1] == h[i + 1];
        }
      }
      AppendHistoryUnset(h', dayOf);
      AppendAllStep(h, dayOf);
    }
  }

  /**
    Starting from the zero window, after appending the history `h` the readings
    are `h` and the mark is the reading that closed the last recorded day, or the
    zero record when no such day change exists.
  */
  lemma AppendHistory(h: seq<Record>, dayOf: int -> int)
    ensures AppendAll(Empty, h, dayOf).rain == h
    ensures forall i :: LastDayChange(h, dayOf, i) ==> AppendAll(Empty, h, dayOf).prevMax == h[i]
    ensures NoDayChange(h, dayOf) ==> AppendAll(Empty, h, dayOf).prevMax == Unset
  {
    var d := AppendAll(Empty, h, dayOf);
    assert d.rain == [] + h;
    forall i | LastDayChange(h, dayOf, i)
      ensures d.prevMax == h[i]
    {
      AppendHistoryMark(h, dayOf, i);
    }
    if NoDayChange(h, dayOf) {
      AppendHistoryUnset(h, dayOf);
    }
  }

  /**
    A prune keeps at least two readings whenever there were two, and never the
    last reading, so the next `Append` updates the mark exactly as it would have
    without the prune.
  */
  lemma AppendAfterPrune(d: Data, idx: nat, amount: real, t: int, dayOf: int -> int)
    requires idx < |d.rain|
    ensures var p := d.(rain := Prune(d.rain, idx));
            Append(p, amount, t, dayOf).prevMax == Append(d, amount, t, dayOf).prevMax
  {
    var kept := Prune(d.rain, idx);
    if |d.rain| > 1 {
      assert |kept| > 1;
      assert kept[|kept| - 1] == d.rain[|d.rain| - 1];
    }
  }

  /**
    Pruning keeps the baseline and every newer reading in order, and the
    baseline stays the baseline of the pruned readings.
  */
  lemma PruneKeepsBaseline(rain: seq<Record>, t: int, idx: nat)
    requires IsBaseline(rain, t, idx)
    ensures var kept := Prune(rain, idx);
            var shift := |rain| - |kept|;
            && shift <= idx
            && kept[idx - shift..] == rain[idx..]
            && IsBaseline(kept, t, idx - shift)
  {
    var kept := Prune(rain, idx);
    var shift := |rain| - |kept|;
    assert forall j :: 0 <= j < |kept| ==> kept[j] == rain[j + shift];
  }

  /** Pruning a sorted window leaves it sorted. */
  lemma PruneKeepsSorted(rain: seq<Record>, idx: nat)
    requires idx < |rain| && Sorted(rain)
    ensures Sorted(Prune(rain, idx))
  {
    var kept := Prune(rain, idx);
    var shift := |rain| - |kept|;
    assert kept == rain[shift..];
    forall i, j | 0 <= i < j < |kept|
      ensures kept[i].time <= kept[j].time
    {
      assert kept[i] == rain[shift + i];
      assert kept[j] == rain[shift + j];
    }
  }

  /**
    Asking again with the same time, amount and threshold right after a query
    (which may have pruned) gives the same answer.
  */
  lemma RepeatQueryAfterPrune(d: Data, amount: real, t: int, threshold: nat)
    requires |d.rain| > 0
    ensures var q1 := RainRef(d, amount, t, threshold);
            && |q1.data.rain| > 0
            && RainRef(q1.data, amount, t, threshold).err == q1.err
            && RainRef(q1.data, amount, t, threshold).value == q1.value
  {
    match LastOld(d.rain, t)
    case None =>
    case Some(i) =>
      var q1 := RainRef(d, amount, t, threshold);
      var kept := Prune(d.rain, i);
      var shift := |d.rain| - |kept|;
      PruneKeepsBaseline(d.rain, t, i);
      assert q1.data == d.(rain := kept);
      assert kept[i - shift] == d.rain[i];
      BaselineUnique(kept, t, i - shift);
  }

  /**
    A newest reading exactly 24 hours old is not recent (the test is strict), so
    it is the baseline, and it is never stale whatever the threshold.
  */
  lemma ExactlyOneDayOldIsEligible(d: Data, amount: real, t: int, threshold: nat)
    requires |d.rain| > 0
    requires t - d.rain[|d.rain| - 1].time == DAY
    ensures var q := RainRef(d, amount, t, threshold);
            && q.err == None
            && q.value == d.prevMax.amount - d.rain[|d.rain| - 1].amount + amount
  {
    assert IsBaseline(d.rain, t, |d.rain| - 1);
  }

  /**
    Wherever the search stops, a baseline exactly 24 hours plus `threshold`
    minutes old is accepted; one a nanosecond older is rejected as "prev too old".
    `PrevNow` ends in `FromBaseline` on sorted and unsorted readings alike.
  */
  lemma StaleBoundInclusive(d: Data, t: int, threshold: nat, i: nat)
    requires i < |d.rain|
    ensures t - d.rain[i].time == DAY + MINUTE * threshold ==>
              FromBaseline(d, t, threshold, i) == Query(d.(rain := Prune(d.rain, i)), d.rain[i].amount, None)
    ensures t - d.rain[i].time == DAY + MINUTE * threshold + 1 ==>
              FromBaseline(d, t, threshold, i) == Query(d.(rain := Prune(d.rain, i)), 0.0, Some(PrevTooOld))
  {
  }

  /**
    A window holding a single reading at least 24 hours old yields that reading
    as the baseline rather than "insufficient data".
  */
  lemma SingleOldReadingSucceeds(m: Record, r: Record, amount: real, t: int, threshold: nat)
    requires DAY <= t - r.time <= DAY + MINUTE * threshold
    ensures RainRef(Data([r], m), amount, t, threshold) == Query(Data([r], m), m.amount - r.amount + amount, None)
  {
    assert IsBaseline([r], t, 0);
  }

  /**
    Readings at 00:00 (amount 0) and 12:00 (amount 5) of one day and 01:00 of the
    next (amount 12), with days counted as whole 24-hour periods: the third
    append records the 12:00 reading as the mark, the midnight reading 25 hours
    back is the baseline, and the answer is 5 - 0 + 12 with a 90-minute gap
    allowance, while a zero allowance finds the baseline too old.
  */
  lemma WorkedExample()
    ensures var dayOf := (x: int) => x / DAY;
            var d := Append(Append(Append(Empty, 0.0, 0, dayOf), 5.0, 12 * HOUR, dayOf), 12.0, 25 * HOUR, dayOf);
            && d.prevMax == Record(12 * HOUR, 5.0)
            && RainRef(d, 12.0, 25 * HOUR, 90) == Query(d, 17.0, None)
            && RainRef(d, 12.0, 25 * HOUR, 0) == Query(d, 0.0, Some(PrevTooOld))
  {
    var dayOf := (x: int) => x / DAY;
    var d := Append(Append(Append(Empty, 0.0, 0, dayOf), 5.0, 12 * HOUR, dayOf), 12.0, 25 * HOUR, dayOf);
    assert d.rain == [Record(0, 0.0), Record(12 * HOUR, 5.0), Record(25 * HOUR, 12.0)];
    assert IsBaseline(d.rain, 25 * HOUR, 0);
  }

  /**
    On time-ordered readings, calling `RainLast24Hours` again with the same
    time, amount and threshold on the window the first call left behind gives
    the same value and error.
  */
  method RepeatRainLast24Hours(d: Data, amount: real, t: int, threshold: nat) returns (q1: Query, q2: Query)
    requires |d.rain| > 0 && Sorted(d.rain)
    ensures q1 == RainRef(d, amount, t, threshold)
    ensures q2.err == q1.err && q2.value == q1.value
  {
    q1 := RainLast24Hours(d, amount, t, threshold);
    RepeatQueryAfterPrune(d, amount, t, threshold);
    if LastOld(d.rain, t).Some? {
      PruneKeepsSorted(d.rain, LastOld(d.rain, t).value);
    }
    q2 := RainLast24Hours(q1.data, amount, t, threshold);
  }
}

=== FILE: results.dfy ===
/** Failure-carrying datatypes shared by the rainfall window and the option validator. */
module Results {

  /** A value that may be absent: Go's nil slice or a missing error. */
  datatype Option<+T> = None | Some(value: T)

  /** The outcome of an operation that either yields a value or fails with an error. */
  datatype Result<+T, +E> = Ok(value: T) | Err(error: E)
}

=== FILE: validate.dfy ===
/**
  The option checks of `validate` in cmd/main.go.

  Strings are byte sequences, since Go's `len` on a string counts bytes.
  `net.ParseIP` is not part of this model: it enters as the partial function
  `parseIP`, which yields the parsed address or nothing.
*/
module Cmd {
  import opened Results

  newtype byte = b: int | 0 <= b < 256

  type Bytes = seq<byte>

  /** The byte of '-', the character trimmed from the callsign and SSID. */
  const DASH: byte := 45

  /** The largest accepted TCP port. */
  const MAX_PORT: nat := 65535

  /** The command-line options (`options` in cmd/main.go); `address` starts out as Go's nil. */
  datatype Options = Options(
    showVersion: bool,
    longitude: real,
    latitude: real,
    callsign: Bytes,
    comment: Bytes,
    ssid: Bytes,
    port: nat,
    inputAddress: Bytes,
    address: Option<Bytes>)

  /** One error per check, in the order the checks run. */
  datatype ValidateError =
    | InvalidLongitude
    | InvalidLatitude
    | InvalidAddress
    | MaxPort(max: nat)
    | SsidTooLong
    | SsidEmpty
    | MissingCallsign
    | CallsignTooLong
    | CallsignTooShort

  /** A check: whether it passes, and the error it reports when it does not. */
  datatype Check = Check(passes: bool, error: ValidateError)

  /** The checks of `validate`, listed in the order cmd/main.go runs them. */
  function Checks(opts: Options, parseIP: Bytes -> Option<Bytes>): (cs: seq<Check>)
    ensures |cs| == 9
    ensures (forall k :: 0 <= k < |cs| ==> cs[k].passes) <==>
              && opts.longitude != 0.0 && opts.latitude != 0.0
              && parseIP(opts.inputAddress).Some?
              && opts.port <= MAX_PORT
              && 1 <= |opts.ssid| <= 2
              && 3 <= |opts.callsign| <= 8
    ensures forall j, k :: 0 <= j < k < |cs| ==> cs[j].error != cs[k].error
  {
    var cs :=
      [ Check(opts.longitude != 0.0, InvalidLongitude),
        Check(opts.latitude != 0.0, InvalidLatitude),
        Check(parseIP(opts.inputAddress).Some?, InvalidAddress),
        Check(opts.port <= MAX_PORT, MaxPort(MAX_PORT)),
        Check(|opts.ssid| <= 2, SsidTooLong),
        Check(|opts.ssid| >= 1, SsidEmpty),
        Check(|opts.callsign| != 0, MissingCallsign),
        Check(|opts.callsign| <= 8, CallsignTooLong),
        Check(|opts.callsign| >= 3, CallsignTooShort) ];
    assert (forall k :: 0 <= k < |cs| ==> cs[k].passes) <==>
             cs[0].passes && cs[1].passes && cs[2].passes && cs[3].passes && cs[4].passes
             && cs[5].passes && cs[6].passes && cs[7].passes && cs[8].passes;
    cs
  }

  /**
    The error of the first check in `checks` that fails, or nothing when all
    pass: the "first failure wins" order of `validate` in cmd/main.go.
  */
  function FirstFailure(checks: seq<Check>): (e: Option<ValidateError>)
    ensures e.None? <==> forall k :: 0 <= k < |checks| ==> checks[k].passes
    ensures e.Some? ==> exists k :: FailsFirst(checks, k) && checks[k].error == e.value
  {
    if |checks| == 0 then None
    else if !checks[0].passes then (assert FailsFirst(checks, 0); Some(checks[0].error))
    else
      var rest := FirstFailure(checks[1..]);
      if rest.Some? then
        var k :| FailsFirst(checks[1..], k) && checks[1..][k].error == rest.value;
        assert FailsFirst(checks, k + 1);
        rest
      else rest
  }

  /** `checks[k]` fails and every check before it passes. */
  predicate FailsFirst(checks: seq<Check>, k: int) {
    && 0 <= k < |checks|
    && !checks[k].passes
    && forall j :: 0 <= j < k ==> checks[j].passes
  }

  /** Remove leading `c` bytes (the left half of `strings.Trim`). */
  function TrimLeft(s: Bytes, c: byte): (r: Bytes)
    ensures |r| <= |s|
    ensures forall k :: 0 <= k < |r| ==> r[k] == s[|s| - |r| + k]
    ensures forall k :: 0 <= k < |s| - |r| ==> s[k] == c
    ensures |r| > 0 ==> r[0] != c
    decreases |s|
  {
    if |s| > 0 && s[0] == c then TrimLeft(s[1..], c) else s
  }

  /** Remove trailing `c` bytes (the right half of `strings.Trim`). */
  function TrimRight(s: Bytes, c: byte): (r: Bytes)
    ensures |r| <= |s|
    ensures forall k :: 0 <= k < |r| ==> r[k] == s[k]
    ensures forall k :: |r| <= k < |s| ==> s[k] == c
    ensures |r| > 0 ==> r[|r| - 1] != c
    decreases |s|
  {
    if |s| > 0 && s[|s| - 1] == c then TrimRight(s[..|s| - 1], c) else s
  }

  /**
    `strings.Trim(s, "-")` for a one-byte cut set: the longest infix of `s`
    that neither starts nor ends with `c`, everything cut away being `c`.
  */
  function Trim(s: Bytes, c: byte): (r: Bytes)
    ensures |r| <= |s|
    ensures |r| > 0 ==> r[0] != c && r[|r| - 1] != c
    ensures exists a :: TrimmedAt(s, r, c, a)
  {
    var left := TrimLeft(s, c);
    var r := TrimRight(left, c);
    TrimHalvesCutOnlyC(s, c, left, r);
    r
  }

  /**
    Trimming the left end and then the right end keeps a contiguous part of
    `s`, starting where the leading `c` bytes end, and cuts away only `c`: the
    requires are what `TrimLeft` and `TrimRight` promise about `left` and `r`.
  */
  lemma TrimHalvesCutOnlyC(s: Bytes, c: byte, left: Bytes, r: Bytes)
    requires |left| <= |s|
    requires forall k :: 0 <= k < |left| ==> left[k] == s[|s| - |left| + k]
    requires forall k :: 0 <= k < |s| - |left| ==> s[k] == c
    requires |r| <= |left|
    requires forall k :: 0 <= k < |r| ==> r[k] == left[k]
    requires forall k :: |r| <= k < |left| ==> left[k] == c
    ensures exists a :: TrimmedAt(s, r, c, a)
  {
    var a := |s| - |left|;
    forall k | 0 <= k < |r|
      ensures r[k] == s[a + k]
    {
      assert r[k] == left[k];
    }
    forall k | a + |r| <= k < |s|
      ensures s[k] == c
    {
      assert s[k] == left[k - a];
    }
    assert TrimmedAt(s, r, c, a);
  }

  /** `r` sits at offset `a` of `s` and every byte of `s` around it is `c`. */
  predicate TrimmedAt(s: Bytes, r: Bytes, c: byte, a: int) {
    && 0 <= a <= |s| - |r|
    && (forall k :: 0 <= k < |r| ==> r[k] == s[a + k])
    && (forall k :: 0 <= k < a ==> s[k] == c)
    && (forall k :: a + |r| <= k < |s| ==> s[k] == c)
  }

  /**
    `validate`: run the checks in order and stop at the first that fails; if
    all pass, store the parsed address and strip '-' from both ends of the
    callsign and the SSID.
  */
  function Validate(opts: Options, parseIP: Bytes -> Option<Bytes>): (r: Result<Options, ValidateError>)
    ensures r.Ok? ==> r.value.address == parseIP(opts.inputAddress)
    ensures r.Ok? ==> r.value.(address := opts.address, callsign := opts.callsign, ssid := opts.ssid) == opts
    ensures r.Ok? ==> r.value.callsign == Trim(opts.callsign, DASH) && r.value.ssid == Trim(opts.ssid, DASH)
  {
    if opts.longitude == 0.0 then Err(InvalidLongitude)
    else if opts.latitude == 0.0 then Err(InvalidLatitude)
    else
      var address := parseIP(opts.inputAddress);
      if address.None? then Err(InvalidAddress)
      else if opts.port > MAX_PORT then Err(MaxPort(MAX_PORT))
      else if |opts.ssid| > 2 then Err(SsidTooLong)
      else if |opts.ssid| < 1 then Err(SsidEmpty)
      else if |opts.callsign| == 0 then Err(MissingCallsign)
      else if |opts.callsign| > 8 then Err(CallsignTooLong)
      else if |opts.callsign| < 3 then Err(CallsignTooShort)
      else Ok(opts.(address := address,
                    callsign := Trim(opts.callsign, DASH),
                    ssid := Trim(opts.ssid, DASH)))
  }

  /** A check that fails with every earlier one passing is the one reported. */
  lemma FirstFailureAt(checks: seq<Check>, k: int)
    requires FailsFirst(checks, k)
    ensures FirstFailure(checks) == Some(checks[k].error)
  {
    var e := FirstFailure(checks);
    var k' :| FailsFirst(checks, k') && checks[k'].error == e.value;
    assert k' == k;
  }

  /**
    The checks of `validate` run in a fixed order and the first one to fail
    decides the error; the options are accepted exactly when every check passes.
  */
  lemma ValidateFirstFailureWins(opts: Options, parseIP: Bytes -> Option<Bytes>)
    ensures Validate(opts, parseIP).Ok? <==> FirstFailure(Checks(opts, parseIP)).None?
    ensures Validate(opts, parseIP).Err? ==>
              FirstFailure(Checks(opts, parseIP)) == Some(Validate(opts, parseIP).error)
  {
    var cs := Checks(opts, parseIP);
    if opts.longitude == 0.0 {
      FirstFailureAt(cs, 0);
    } else if opts.latitude == 0.0 {
      FirstFailureAt(cs, 1);
    } else if parseIP(opts.inputAddress).None? {
      FirstFailureAt(cs, 2);
    } else if opts.port > MAX_PORT {
      FirstFailureAt(cs, 3);
    } else if |opts.ssid| > 2 {
      FirstFailureAt(cs, 4);
    } else if |opts.ssid| < 1 {
      FirstFailureAt(cs, 5);
    } else if |opts.callsign| == 0 {
      FirstFailureAt(cs, 6);
    } else if |opts.callsign| > 8 {
      FirstFailureAt(cs, 7);
    } else if |opts.callsign| < 3 {
      FirstFailureAt(cs, 8);
    } else {
      assert forall k :: 0 <= k < |cs| ==> cs[k].passes;
    }
  }

  /** The first `n` checks pass. */
  predicate PassesFirst(opts: Options, parseIP: Bytes -> Option<Bytes>, n: nat) {
    var checks := Checks(opts, parseIP);
    forall k :: 0 <= k < n && k < |checks| ==> checks[k].passes
  }

  /**
    Once coordinates and address pass, every port up to 65535 passes the port
    check, so 65535 is accepted and 65536 is not.
  */
  lemma PortBoundary(opts: Options, parseIP: Bytes -> Option<Bytes>)
    requires PassesFirst(opts, parseIP, 3)
    ensures opts.port <= MAX_PORT ==> PassesFirst(opts, parseIP, 4)
    ensures opts.port > MAX_PORT <==> Validate(opts, parseIP) == Err(MaxPort(MAX_PORT))
  {
    assert Checks(opts, parseIP)[0].passes && Checks(opts, parseIP)[1].passes;
    assert Checks(opts, parseIP)[2].passes;
  }

  /** Once the earlier checks pass, an SSID must be one or two bytes long. */
  lemma SsidLength(opts: Options, parseIP: Bytes -> Option<Bytes>)
    requires PassesFirst(opts, parseIP, 4)
    ensures |opts.ssid| > 2 <==> Validate(opts, parseIP) == Err(SsidTooLong)
    ensures |opts.ssid| == 0 <==> Validate(opts, parseIP) == Err(SsidEmpty)
  {
    var checks := Checks(opts, parseIP);
    assert checks[0].passes && checks[1].passes && checks[2].passes && checks[3].passes;
  }

  /** Once the earlier checks pass, exactly the callsigns of 3 to 8 bytes are accepted. */
  lemma CallsignLength(opts: Options, parseIP: Bytes -> Option<Bytes>)
    requires PassesFirst(opts, parseIP, 6)
    ensures |opts.callsign| == 0 <==> Validate(opts, parseIP) == Err(MissingCallsign)
    ensures |opts.callsign| > 8 <==> Validate(opts, parseIP) == Err(CallsignTooLong)
    ensures 0 < |opts.callsign| < 3 <==> Validate(opts, parseIP) == Err(CallsignTooShort)
    ensures 3 <= |opts.callsign| <= 8 <==> Validate(opts, parseIP).Ok?
  {
    var checks := Checks(opts, parseIP);
    assert checks[0].passes && checks[1].passes && checks[2].passes;
    assert checks[3].passes && checks[4].passes && checks[5].passes;
  }

  /** Trimming twice is trimming once. */
  lemma TrimIdempotent(s: Bytes, c: byte)
    ensures Trim(Trim(s, c), c) == Trim(s, c)
  {
    var r := Trim(s, c);
    assert TrimLeft(r, c) == r;
    assert TrimRight(r, c) == r;
  }

  /**
    Trimming runs after the length checks: a callsign of three dashes and an
    SSID of one dash are accepted and come out empty.
  */
  lemma DashesTrimToEmpty(opts: Options, parseIP: Bytes -> Option<Bytes>)
    requires opts.longitude != 0.0 && opts.latitude != 0.0
    requires parseIP(opts.inputAddress).Some? && opts.port <= MAX_PORT
    requires opts.callsign == [DASH, DASH, DASH] && opts.ssid == [DASH]
    ensures Validate(opts, parseIP).Ok?
    ensures Validate(opts, parseIP).value.callsign == []
    ensures Validate(opts, parseIP).value.ssid == []
  {
    assert TrimLeft([DASH], DASH) == [];
    assert TrimLeft([DASH, DASH], DASH) == [];
    assert TrimLeft([DASH, DASH, DASH], DASH) == [];
  }
}
